=== FILE: README.md ===
# Chess room coordinator: a Dafny model of the `games` table

The game server keeps one in-memory table, `games`, from a room id to a game:
the chess engine's position plus a list of at most two seats `{id, color}`.
Three socket handlers change it:

- `join` creates the room the first time its id is used, and seats the
  socket while fewer than two seats are taken. The colour depends only on the
  seat count at that moment (white for the first seat, black otherwise).
- `move` drops requests for unknown rooms, from sockets without a seat, and
  from players whose colour is not the engine's side to move. Every other
  request goes to the engine. The new position is broadcast only when the
  engine makes the move.
- `disconnecting` removes the leaving socket's seats from every room the
  socket is in. A room left empty is deleted; otherwise the room is told how
  many players remain.

Each handler runs to completion on Node's single thread. So the model is a
set of pure transitions `(state, event) -> (state', messages)`:

- `rules.dfy` (`ChessRules`): the chess engine as an abstract oracle, passed
  in as a value. It holds the start FEN, the side to move of a FEN, and the
  result of playing a move: accepted with a new FEN, refused (`null`), or
  thrown. A position is its FEN string, which records everything move
  legality depends on.
- `table.dfy` (`RoomTable`): seats, games, the server state and the messages.
  The state includes each socket's room memberships, in the order it entered
  them. The transport puts every socket in a room named by its own id, so a
  socket that has joined nothing is in that room only. The module also holds
  `find` and `filter` on seat lists and the invariants.
- `join.dfy`, `move.dfy`, `disconnect.dfy`: one handler each.
- `coordinator.dfy` (`Coordinator`): the event type, the dispatcher, runs
  over event sequences, and the invariants every reachable state keeps.
- `quirks.dfy` (`Quirks`): scenarios that follow from the code as written.
  A socket that joins twice holds both seats. After white leaves, the next
  joiner is black too. A socket with both seats can never move black. The
  room named by a socket's own id is swept when that socket disconnects.

## Model

| member | source | states |
|---|---|---|
| ChessRules.SideOf | server.js:33 | A colour plays side `w` exactly when it is white. |
| ChessRules.OutOfTurn | server.js:34-36 | The server's turn guard rejects a player exactly when the player's colour is not the engine's side to move. |
| RoomTable.Enter | server.js:21 | Joining an io room adds it to the socket's memberships at most once. Earlier memberships stay, in order, and a list without repeats stays without repeats. |
| RoomTable.FirstSeat | server.js:30 | `players.find` gives no seat exactly when the socket holds none. Otherwise it gives the socket's earliest seat in the list. |
| RoomTable.Without | server.js:54 | `players.filter` leaves no seat of the leaving socket and never lengthens the list. |
| RoomTable.WithoutCounts | server.js:54 | After filtering, each seat of the leaving socket occurs zero times and every other seat occurs exactly as often as before. |
| RoomTable.WithoutAppend | server.js:54 | Filtering keeps order: filtering a list made of a front part and a back part gives the front part filtered followed by the back part filtered. |
| RoomTable.WithoutKeepsAll | server.js:54 | A list in which the socket holds no seat comes back unchanged. |
| RoomTable.WithoutEmpty | server.js:54-55 | The list is left empty, so the room is deleted, exactly when every seat belonged to the leaving socket. |
| RoomTable.WithoutIdempotent | server.js:54 | Filtering the same socket out a second time removes nothing more. |
| JoinHandler.NextColor | server.js:19 | The next seat is white exactly when no seat is taken. |
| JoinHandler.OnJoin | server.js:14-25 | An unseen room is created with the engine's start position and the joiner as white. An existing room is never reinitialised. A full room leaves the whole state unchanged and sends nothing. Otherwise the seat is appended with white for an empty room and black otherwise, earlier seats unchanged. The joiner gets `init` with the room's position and that colour, and the room gets the new seat count. The joiner's memberships become exactly its old ones plus the room: earlier ones keep their order, and the room is added at the end only if it was not already there. Other rooms and sockets are untouched. |
| MoveHandler.AdmittedByFirstSeat | server.js:30-36 | The server's check, which finds the socket's first seat and then tests the turn, passes exactly when the socket's earliest seat plays the side to move. |
| MoveHandler.OnMove | server.js:27-49 | A move for an unknown room, or from a socket with no seat there, changes nothing and sends nothing. A move is broadcast exactly when the socket's first seat plays the engine's side to move and the engine accepts the move. Otherwise nothing changes. An accepted move replaces only that room's position and broadcasts the new one. `gameover` is never sent. |
| DisconnectHandler.LeaveRoom | server.js:53-57 | One loop pass for one room: the room survives exactly when someone other than the leaving socket holds a seat there. A survivor keeps its position and exactly the seats `filter` keeps: every other socket's seats, in order. It alone is told its count, once. A room not in the table is skipped silently. No other room changes. |
| DisconnectHandler.LeaveRooms | server.js:52-58 | The loop over the socket's rooms never adds a room and sends at most one message per room visited. |
| DisconnectHandler.LeaveRoomsTable | server.js:52-58 | After the sweep, rooms the socket is not in are untouched. Rooms it is in lose exactly its seats and are deleted when nothing is left. |
| DisconnectHandler.SweepKeepsCleared | server.js:52-58 | A room in which the socket holds no seat comes through the sweep unchanged. |
| DisconnectHandler.Announce | server.js:52-58 | The reference list of messages for a sweep: visiting the rooms in order, one `players` message with the final count per surviving room. Every surviving visited room is in the list and nothing else is. |
| DisconnectHandler.AnnounceOncePerRoom | server.js:52-58 | When no room is visited twice, no room is told twice. |
| DisconnectHandler.LeaveRoomsMessages | server.js:52-58 | The messages the loop sends are exactly the reference list: one per surviving room, in the order the rooms are visited, each with the count left after the whole sweep. |
| DisconnectHandler.OnDisconnect | server.js:51-59 | The socket loses its memberships. Each room it is in loses exactly its seats and is deleted once empty. The messages are exactly the reference list over its memberships, in membership order. Rooms it is not in are untouched. |
| Coordinator.Handle | server.js:13-60 | Dispatch: only `join` can add a room, and only the room it names. `join` and `move` leave every other room alone and address only the sender or the named room. `disconnecting` addresses only rooms the socket was in. No handler ever sends `gameover`. |
| Coordinator.Run | server.js:13-60 | After any sequence of events, every room in the table was there at the start or was named by one of the `join` events. |
| Coordinator.DisconnectTellsEachRoomOnce | server.js:51-59 | In a valid state, a disconnect tells each room at most once. |
| Coordinator.JoinPreservesValid | server.js:14-25 | `join` keeps every room at one or two seats, keeps membership lists without repeats, and keeps every seat holder a member of its room. |
| Coordinator.MovePreservesValid | server.js:27-49 | `move` keeps the same invariants. |
| Coordinator.DisconnectPreservesValid | server.js:51-59 | `disconnecting` keeps the same invariants. |
| Coordinator.HandlePreservesValid | server.js:13-60 | Every handler keeps the invariants. |
| Coordinator.RunPreservesValid | server.js:13-60 | Any sequence of events from a valid state ends in a valid state. |
| Coordinator.ReachableSeatBound | server.js:15-24 | In every state reachable from an empty server, each room has one or two seats. |
| Coordinator.NeverGameOver | server.js:41 | No sequence of events ever produces a `gameover` message. |
| Coordinator.DisconnectClearsSeats | server.js:51-59 | In a valid state, a disconnected socket holds no seat in any room afterwards. |
| Coordinator.HandleSeatsEvolve | server.js:18-20 | A surviving room's seat list changes in one of three ways: not at all, by one seat appended, or by one socket's seats filtered out. Seat colours are never reassigned. |
| Quirks.TwoJoinersGetBothColours | server.js:15-23 | Two joins to a fresh room give white then black at the start position. The messages are `init`, `players 1`, `init`, `players 2` in that order. |
| Quirks.ThirdJoinerIgnored | server.js:18 | A join to a room with two seats changes nothing and sends nothing. |
| Quirks.DoubleJoinTakesBothSeats | server.js:18-20 | A socket joining a fresh room twice holds both the white and the black seat. |
| Quirks.DoubleSeatBlackNeverMoves | server.js:30-36 | A socket holding both seats is always found by its white seat, so its moves are dropped whenever black is to move. |
| Quirks.WhiteLeaves | server.js:54-56 | When white leaves a full room, black stays and the room hears `players 1`. |
| Quirks.LoneBlackNextJoinerBlack | server.js:18-20 | A room whose only seat is black gives the next joiner black too, so colours in a room need not differ. |
| Quirks.AllBlackRoomStuck | server.js:33-36 | In a room whose seats are all black, every move is dropped while white is to move. |
| Quirks.OwnIdRoomSwept | server.js:52-56 | A socket that joined nothing still sweeps the room named by its own id. If such a game exists, the game is unchanged and is told its current count. |

## Left out

- Transport: socket.io, the HTTP server and `server.listen` (server.js:1-8, 62). Messages are addressed to a socket or to a room. Delivering them to the sockets in a room is the transport's job and is not modelled.
- chess.js internals. The engine is an abstract oracle value, and its behaviour (including turn alternation) is whatever the oracle says.
- The game-over line (server.js:41) is a parenthesised comma expression with no emit. It has no effect on state or messages, so it is not modelled. If the engine version lacks `game_over`, the call throws after the broadcast and is caught, with the same observable result.
- `console.error` logging in the catch block (server.js:46): it has no effect on state.
- Room ids are strings. Ids that JavaScript maps to other keys (non-string payloads) or to inherited object properties such as `constructor` are not modelled.
- A `move` whose payload is missing or `null` throws at the destructuring on server.js:27, outside the `try`; the listener runs outside any caller that could catch it, so the process stops and every room is lost. The `Move` event always carries a room and two squares, so this crash is not modelled.
- Socket ids are assumed unique per connection, as the transport guarantees. The `connection` handler only registers listeners, so it has no event of its own.
- Match statuses, a `RoomFull` error, a `matchStarted` broadcast, reconnection windows, abandonment, settlement and reclaiming finished rooms: `server.js` has none of these, so there is nothing to model.
- The client (components/Home/ChessGame.tsx) and the static pages: presentation only. The client's `gameover` listener is why the message type includes `GameOver`.

=== FILE: coordinator.dfy ===
/** The server as one state machine: every socket event runs to completion
    before the next, so a run is a fold of the handlers over the event
    stream. */
module Coordinator {
  import opened ChessRules
  import opened RoomTable
  import opened JoinHandler
  import opened MoveHandler
  import opened DisconnectHandler

  /** The three events the server listens to on each socket. */
  datatype Event =
    | Join(socket: SocketId, room: RoomId)
    | Move(socket: SocketId, room: RoomId, from: Square, to: Square)
    | Disconnecting(socket: SocketId)

  /** Dispatch one event to its listener. A `join` or `move` touches only the
      room it names and sends only to that room or to the sender; only a
      `join` can create a room, and a disconnect only removes rooms. */
  function Handle(rules: Rules, st: State, ev: Event): (o: Outcome)
    ensures ev.Join? ==> o.next.games.Keys == st.games.Keys + {ev.room}
    ensures !ev.Join? ==> o.next.games.Keys <= st.games.Keys
    ensures !ev.Disconnecting? ==> forall k :: k in st.games && k != ev.room ==> k in o.next.games && o.next.games[k] == st.games[k]
    ensures !ev.Disconnecting? ==> forall e :: e in o.emitted ==>
      (e.ToSocket? && e.socket == ev.socket) || (e.ToRoom? && e.room == ev.room)
    ensures ev.Disconnecting? ==> forall e :: e in o.emitted ==> e.ToRoom? && e.room in Memberships(st, ev.socket)
    // no handler ever sends the game-over message
    ensures forall e :: e in o.emitted ==> !e.msg.GameOver?
  {
    match ev
    case Join(s, r) => OnJoin(rules, st, s, r)
    case Move(s, r, from, to) => OnMove(rules, st, s, r, from, to)
    case Disconnecting(s) => OnDisconnect(st, s)
  }

  /** Handle the events in order; the messages come out in the order they
      were sent. A room exists at the end only if it existed at the start or
      some event in the run joined it. */
  function Run(rules: Rules, st: State, evs: seq<Event>): (o: Outcome)
    decreases |evs|
    ensures forall k :: k in o.next.games ==>
      k in st.games || exists i :: 0 <= i < |evs| && evs[i].Join? && evs[i].room == k
  {
    if evs == [] then Outcome(st, [])
    else
      var first := Handle(rules, st, evs[0]);
      var rest := Run(rules, first.next, evs[1..]);
      assert forall i :: 0 <= i < |evs| - 1 ==> evs[1..][i] == evs[i + 1];
      Outcome(rest.next, first.emitted + rest.emitted)
  }

  /** When no stored membership list repeats a room, no socket's memberships
      do, including the default list of a socket that joined nothing. */
  lemma MembershipsDistinctEach(st: State, s: SocketId)
    requires MembershipsDistinct(st)
    ensures Distinct(Memberships(st, s))
  {
  }

  lemma JoinKeepsMembers(rules: Rules, st: State, s: SocketId, r: RoomId)
    requires SeatsHeldByMembers(st)
    ensures SeatsHeldByMembers(OnJoin(rules, st, s, r).next)
  {
  }

  lemma JoinPreservesValid(rules: Rules, st: State, s: SocketId, r: RoomId)
    requires Valid(st)
    ensures Valid(OnJoin(rules, st, s, r).next)
  {
    var o := OnJoin(rules, st, s, r);
    MembershipsDistinctEach(st, s);
    if o.emitted != [] {
      assert o.next.rooms[s] == Enter(Memberships(st, s), r);
    }
    JoinKeepsMembers(rules, st, s, r);
  }

  lemma MovePreservesValid(rules: Rules, st: State, s: SocketId, r: RoomId, from: Square, to: Square)
    requires Valid(st)
    ensures Valid(OnMove(rules, st, s, r, from, to).next)
  {
  }

  /** A seat of socket `s` in a valid state sits in one of its rooms. */
  lemma SeatInMemberships(st: State, s: SocketId, k: RoomId, i: nat)
    requires SeatsHeldByMembers(st)
    requires k in st.games && i < |st.games[k].seats| && st.games[k].seats[i].id == s
    ensures k in Memberships(st, s)
  {
  }

  lemma DisconnectKeepsSeatBound(st: State, s: SocketId)
    requires SeatBound(st)
    ensures SeatBound(OnDisconnect(st, s).next)
  {
  }

  lemma DisconnectKeepsMembers(st: State, s: SocketId)
    requires SeatsHeldByMembers(st)
    ensures SeatsHeldByMembers(OnDisconnect(st, s).next)
  {
    var o := OnDisconnect(st, s);
    forall k, i | k in o.next.games && 0 <= i < |o.next.games[k].seats|
      ensures k in Memberships(o.next, o.next.games[k].seats[i].id)
    {
      var seat := o.next.games[k].seats[i];
      var t := seat.id;
      if k in Memberships(st, s) {
        WithoutKeepsSeat(st.games[k].seats, s, i);
        var j :| 0 <= j < |st.games[k].seats| && st.games[k].seats[j] == seat;
        SeatInMemberships(st, t, k, j);
      } else {
        assert o.next.games[k] == st.games[k];
        SeatInMemberships(st, t, k, i);
      }
      assert t != s;
      assert Memberships(o.next, t) == Memberships(st, t);
    }
  }

  lemma DisconnectPreservesValid(st: State, s: SocketId)
    requires Valid(st)
    ensures Valid(OnDisconnect(st, s).next)
  {
    DisconnectKeepsSeatBound(st, s);
    DisconnectKeepsMembers(st, s);
  }

  /** Each handler keeps the table's invariants. */
  lemma HandlePreservesValid(rules: Rules, st: State, ev: Event)
    requires Valid(st)
    ensures Valid(Handle(rules, st, ev).next)
  {
    match ev
    case Join(s, r) => JoinPreservesValid(rules, st, s, r);
    case Move(s, r, from, to) => MovePreservesValid(rules, st, s, r, from, to);
    case Disconnecting(s) => DisconnectPreservesValid(st, s);
  }

  /** Any run from a valid state ends in a valid state. */
  lemma {:induction false} RunPreservesValid(rules: Rules, st: State, evs: seq<Event>)
    requires Valid(st)
    ensures Valid(Run(rules, st, evs).next)
    decreases |evs|
  {
    if evs != [] {
      HandlePreservesValid(rules, st, evs[0]);
      RunPreservesValid(rules, Handle(rules, st, evs[0]).next, evs[1..]);
    }
  }

  /** Every state reachable from the empty server is valid: in particular no
      room ever holds more than two seats, and no room is ever left empty. */
  lemma ReachableSeatBound(rules: Rules, evs: seq<Event>)
    ensures forall r :: r in Run(rules, Empty, evs).next.games ==>
      1 <= |Run(rules, Empty, evs).next.games[r].seats| <= 2
  {
    RunPreservesValid(rules, Empty, evs);
  }

  /** The game-over message is never sent, whatever the events. */
  lemma {:induction false} NeverGameOver(rules: Rules, st: State, evs: seq<Event>)
    ensures forall e :: e in Run(rules, st, evs).emitted ==> !e.msg.GameOver?
    decreases |evs|
  {
    if evs != [] {
      var first := Handle(rules, st, evs[0]);
      NeverGameOver(rules, first.next, evs[1..]);
      assert Run(rules, st, evs).emitted == first.emitted + Run(rules, first.next, evs[1..]).emitted;
    }
  }

  /** Once a socket has disconnected it holds no seat in any room. */
  lemma DisconnectClearsSeats(st: State, s: SocketId)
    requires Valid(st)
    ensures forall k, i :: k in OnDisconnect(st, s).next.games && 0 <= i < |OnDisconnect(st, s).next.games[k].seats| ==>
      OnDisconnect(st, s).next.games[k].seats[i].id != s
  {
  }

  /** How one event may change a surviving room's seat list: not at all, by
      one seat appended at the end, or by one socket's seats filtered out.
      Seats already taken are never recoloured or reordered. */
  ghost predicate SeatsEvolve(before: seq<Seat>, after: seq<Seat>)
  {
    || after == before
    || (|after| == |before| + 1 && after[..|before|] == before)
    || exists s :: after == Without(before, s)
  }

  lemma HandleSeatsEvolve(rules: Rules, st: State, ev: Event)
    ensures forall k :: k in st.games && k in Handle(rules, st, ev).next.games ==>
      SeatsEvolve(st.games[k].seats, Handle(rules, st, ev).next.games[k].seats)
  {
  }

  /** In a valid state a disconnect tells each surviving room once. */
  lemma DisconnectTellsEachRoomOnce(st: State, s: SocketId)
    requires Valid(st)
    ensures forall i, j :: 0 <= i < j < |OnDisconnect(st, s).emitted| ==>
      OnDisconnect(st, s).emitted[i].room != OnDisconnect(st, s).emitted[j].room
  {
    MembershipsDistinctEach(st, s);
    AnnounceOncePerRoom(Memberships(st, s), OnDisconnect(st, s).next.games);
  }
}

=== FILE: disconnect.dfy ===
/** The `disconnecting` handler: for every room the leaving socket is in,
    drop its seats, delete the room if nobody is left, and otherwise tell the
    room how many players remain. */
module DisconnectHandler {
  import opened RoomTable

  /** The table and the messages produced while sweeping the rooms. */
  datatype Sweep = Sweep(games: map<RoomId, Game>, emitted: seq<Emit>)

  /** One pass of the loop body, for room `r`. */
  function LeaveRoom(games: map<RoomId, Game>, s: SocketId, r: RoomId): (w: Sweep)
    // the room survives exactly when someone other than `s` holds a seat in it
    ensures r in w.games <==> r in games && exists i :: 0 <= i < |games[r].seats| && games[r].seats[i].id != s
    ensures r in w.games ==> w.games[r].fen == games[r].fen && |w.games[r].seats| <= |games[r].seats|
    ensures r in w.games ==> forall i :: 0 <= i < |w.games[r].seats| ==> w.games[r].seats[i].id != s
    // the survivor keeps exactly the other sockets' seats, in order (see `WithoutCounts`, `WithoutAppend`)
    ensures r in w.games ==> w.games[r].seats == Without(games[r].seats, s)
    // a surviving room alone is told, once, the count it is left with
    ensures w.emitted == if r in w.games then [ToRoom(r, Players(|w.games[r].seats|))] else []
    // every other room is left as it was
    ensures forall k :: k != r ==> (k in w.games <==> k in games)
    ensures forall k :: k != r && k in games ==> w.games[k] == games[k]
  {
    if r in games then
      var left := Without(games[r].seats, s);
      WithoutEmpty(games[r].seats, s);
      if |left| == 0 then Sweep(games - {r}, [])
      else Sweep(games[r := games[r].(seats := left)], [ToRoom(r, Players(|left|))])
    else Sweep(games, [])
  }

  /** The loop over the socket's rooms, in order. */
  function LeaveRooms(games: map<RoomId, Game>, s: SocketId, rooms: seq<RoomId>): (w: Sweep)
    decreases |rooms|
    ensures w.games.Keys <= games.Keys
    ensures |w.emitted| <= |rooms|
  {
    if rooms == [] then Sweep(games, [])
    else
      var first := LeaveRoom(games, s, rooms[0]);
      var rest := LeaveRooms(first.games, s, rooms[1..]);
      Sweep(rest.games, first.emitted + rest.emitted)
  }

  /** What the table looks like after the sweep, room by room: rooms the
      socket is not in are untouched; rooms it is in lose exactly its seats
      and are deleted once empty. */
  ghost predicate SweptTable(games: map<RoomId, Game>, s: SocketId, rooms: seq<RoomId>, out: map<RoomId, Game>)
  {
    && (forall k :: k in out <==> k in games && (k !in rooms || Without(games[k].seats, s) != []))
    && (forall k :: k in out && k !in rooms ==> out[k] == games[k])
    && (forall k :: k in out && k in rooms ==> out[k] == games[k].(seats := Without(games[k].seats, s)))
  }

  /** The messages the sweep sends, read off the final table: for each room
      visited, in visiting order, one `players` message with its final count
      if the room survives, nothing if it is gone. */
  function Announce(rooms: seq<RoomId>, out: map<RoomId, Game>): (es: seq<Emit>)
    decreases |rooms|
    ensures |es| <= |rooms|
    ensures forall e :: e in es ==>
      e.ToRoom? && e.room in rooms && e.room in out && e.msg == Players(|out[e.room].seats|)
    ensures forall k :: k in rooms && k in out ==> ToRoom(k, Players(|out[k].seats|)) in es
  {
    if rooms == [] then []
    else
      var head := if rooms[0] in out then [ToRoom(rooms[0], Players(|out[rooms[0]].seats|))] else [];
      var tail := Announce(rooms[1..], out);
      assert forall k :: k in rooms ==> k == rooms[0] || k in rooms[1..];
      head + tail
  }

  /** When no room is visited twice, no room is told twice. */
  lemma {:induction false} AnnounceOncePerRoom(rooms: seq<RoomId>, out: map<RoomId, Game>)
    requires Distinct(rooms)
    ensures forall i, j :: 0 <= i < j < |Announce(rooms, out)| ==> Announce(rooms, out)[i].room != Announce(rooms, out)[j].room
    decreases |rooms|
  {
    if rooms != [] {
      var r, rest := rooms[0], rooms[1..];
      var tail := Announce(rest, out);
      assert Distinct(rest) by {
        forall i, j | 0 <= i < j < |rest| ensures rest[i] != rest[j] {
          assert rest[i] == rooms[i + 1] && rest[j] == rooms[j + 1];
        }
      }
      assert r !in rest by {
        forall i | 0 <= i < |rest| ensures rest[i] != r {
          assert rest[i] == rooms[i + 1];
        }
      }
      AnnounceOncePerRoom(rest, out);
      if r in out {
        var es := [ToRoom(r, Players(|out[r].seats|))] + tail;
        assert Announce(rooms, out) == es;
        forall j | 0 < j < |es|
          ensures es[0].room != es[j].room
        {
          assert es[j] == tail[j - 1];
          assert tail[j - 1] in tail;
        }
      } else {
        assert Announce(rooms, out) == tail;
      }
    }
  }

  lemma {:induction false} LeaveRoomsTable(games: map<RoomId, Game>, s: SocketId, rooms: seq<RoomId>)
    ensures SweptTable(games, s, rooms, LeaveRooms(games, s, rooms).games)
    decreases |rooms|
  {
    if rooms != [] {
      var r, rest := rooms[0], rooms[1..];
      var mid := LeaveRoom(games, s, r).games;
      var out := LeaveRooms(games, s, rooms).games;
      assert out == LeaveRooms(mid, s, rest).games;
      LeaveRoomsTable(mid, s, rest);
      forall k
        ensures k in out <==> k in games && (k !in rooms || Without(games[k].seats, s) != [])
        ensures k in out && k !in rooms ==> out[k] == games[k]
        ensures k in out && k in rooms ==> out[k] == games[k].(seats := Without(games[k].seats, s))
      {
        if k == r {
          assert k in rooms;
          if r in games {
            WithoutIdempotent(games[r].seats, s);
          }
        } else {
          assert k in rooms <==> k in rest;
        }
      }
    }
  }

  /** A room where `s` holds no seat comes through the sweep unchanged. */
  lemma SweepKeepsCleared(games: map<RoomId, Game>, s: SocketId, rooms: seq<RoomId>, r: RoomId)
    requires r in games && |games[r].seats| > 0
    requires forall i :: 0 <= i < |games[r].seats| ==> games[r].seats[i].id != s
    ensures r in LeaveRooms(games, s, rooms).games
    ensures LeaveRooms(games, s, rooms).games[r] == games[r]
  {
    LeaveRoomsTable(games, s, rooms);
    WithoutKeepsAll(games[r].seats, s);
  }

  lemma {:induction false} LeaveRoomsMessages(games: map<RoomId, Game>, s: SocketId, rooms: seq<RoomId>)
    ensures LeaveRooms(games, s, rooms).emitted == Announce(rooms, LeaveRooms(games, s, rooms).games)
    decreases |rooms|
  {
    if rooms != [] {
      var r, rest := rooms[0], rooms[1..];
      var first := LeaveRoom(games, s, r);
      var tail := LeaveRooms(first.games, s, rest);
      var out := tail.games;
      assert LeaveRooms(games, s, rooms) == Sweep(out, first.emitted + tail.emitted);
      LeaveRoomsMessages(first.games, s, rest);
      var head := if r in out then [ToRoom(r, Players(|out[r].seats|))] else [];
      assert Announce(rooms, out) == head + Announce(rest, out);
      if r in first.games {
        SweepKeepsCleared(first.games, s, rest, r);
      }
      assert first.emitted == head;
    }
  }

  /** Socket `s` is disconnecting: sweep every room it is in, then the
      transport forgets its memberships. */
  function OnDisconnect(st: State, s: SocketId): (o: Outcome)
    // the transport drops the socket from all its rooms
    ensures o.next.rooms == st.rooms - {s}
    // rooms it is in lose exactly its seats; those left empty are deleted
    ensures forall k :: k in o.next.games <==>
      k in st.games && (k !in Memberships(st, s) || Without(st.games[k].seats, s) != [])
    ensures forall k :: k in o.next.games && k in Memberships(st, s) ==>
      o.next.games[k] == st.games[k].(seats := Without(st.games[k].seats, s))
    // other rooms are untouched
    ensures forall k :: k in o.next.games && k !in Memberships(st, s) ==> o.next.games[k] == st.games[k]
    // each surviving room it was in is told its new count, in membership order
    ensures o.emitted == Announce(Memberships(st, s), o.next.games)
  {
    var w := LeaveRooms(st.games, s, Memberships(st, s));
    LeaveRoomsTable(st.games, s, Memberships(st, s));
    LeaveRoomsMessages(st.games, s, Memberships(st, s));
    Outcome(State(w.games, st.rooms - {s}), w.emitted)
  }
}

=== FILE: join.dfy ===
/** The `join` handler: create the room on first use, then seat the socket
    while the room has fewer than two players. */
module JoinHandler {
  import opened ChessRules
  import opened RoomTable

  /** The colour the next seat gets: it depends only on how many seats are
      already taken. */
  function NextColor(taken: nat): (c: Color)
    ensures c == White <==> taken == 0
  {
    if taken == 0 then White else Black
  }

  /** Socket `s` asks to join room `r`. */
  function OnJoin(rules: Rules, st: State, s: SocketId, r: RoomId): (o: Outcome)
    // a room exists afterwards, and only `r` can have been added
    ensures o.next.games.Keys == st.games.Keys + {r}
    // a new room starts from the engine's initial position with the joiner as white
    ensures r !in st.games ==>
      && o.next.games[r] == Game(rules.start, [Seat(s, White)])
      && o.emitted == [ToSocket(s, Init(rules.start, White)), ToRoom(r, Players(1))]
    // an existing room keeps its position: join never reinitialises it
    ensures r in st.games ==> o.next.games[r].fen == st.games[r].fen
    // a full room: nothing at all happens
    ensures r in st.games && |st.games[r].seats| >= 2 ==> o == Outcome(st, [])
    // a room with a free seat: the seat is appended, coloured by the count before
    ensures r in st.games && |st.games[r].seats| < 2 ==>
      var before := st.games[r].seats;
      var c := if |before| == 0 then White else Black;
      && o.next.games[r].seats == before + [Seat(s, c)]
      && o.emitted == [ToSocket(s, Init(st.games[r].fen, c)), ToRoom(r, Players(|before| + 1))]
    // the broadcast count is the room's seat count afterwards, and it never exceeds two
    ensures forall e :: e in o.emitted && e.ToRoom? ==> e == ToRoom(r, Players(|o.next.games[r].seats|))
    ensures r in st.games && |st.games[r].seats| <= 2 ==> |o.next.games[r].seats| <= 2
    ensures r !in st.games ==> |o.next.games[r].seats| == 1
    // a seated socket is in the room; a refused one is not put there
    ensures o.emitted != [] ==> r in Memberships(o.next, s)
    // joining adds room `r` to the socket's memberships and nothing else
    ensures o.emitted != [] ==>
      && (forall x :: x in Memberships(o.next, s) <==> x in Memberships(st, s) || x == r)
      && |Memberships(o.next, s)| == |Memberships(st, s)| + (if r in Memberships(st, s) then 0 else 1)
    ensures o.emitted == [] ==> o.next.rooms == st.rooms
    // other rooms and other sockets are untouched
    ensures forall k :: k in st.games && k != r ==> o.next.games[k] == st.games[k]
    ensures forall t :: t != s ==> Memberships(o.next, t) == Memberships(st, t)
    ensures forall t :: t in o.next.rooms <==> t in st.rooms || (t == s && o.emitted != [])
    ensures |Memberships(st, s)| <= |Memberships(o.next, s)|
    ensures Memberships(o.next, s)[..|Memberships(st, s)|] == Memberships(st, s)
  {
    var g := if r in st.games then st.games[r] else Game(rules.start, []);
    if |g.seats| < 2 then
      var color := NextColor(|g.seats|);
      var g' := g.(seats := g.seats + [Seat(s, color)]);
      var st' := State(st.games[r := g'], st.rooms[s := Enter(Memberships(st, s), r)]);
      Outcome(st', [ToSocket(s, Init(g'.fen, color)), ToRoom(r, Players(|g'.seats|))])
    else
      Outcome(st, [])
  }
}

=== FILE: move.dfy ===
/** The `move` handler: admit a move only from a seat holder whose colour is
    to move, hand it to the engine, and broadcast the new position only when
    the engine makes the move. */
module MoveHandler {
  import opened ChessRules
  import opened RoomTable

  /** Independent statement of who may move in room `r`: the room exists and
      the FIRST seat socket `s` holds there plays the side the engine says is
      to move. Later seats of the same socket are never consulted. */
  ghost predicate Admitted(rules: Rules, st: State, s: SocketId, r: RoomId)
  {
    && r in st.games
    && exists i :: 0 <= i < |st.games[r].seats|
         && st.games[r].seats[i].id == s
         && (forall j :: 0 <= j < i ==> st.games[r].seats[j].id != s)
         && SideOf(st.games[r].seats[i].color) == rules.turn(st.games[r].fen)
  }

  /** The server's check (find the first seat, then test the turn) admits
      exactly the moves `Admitted` describes. */
  lemma AdmittedByFirstSeat(rules: Rules, st: State, s: SocketId, r: RoomId)
    requires r in st.games
    ensures Admitted(rules, st, s, r) <==>
      && FirstSeat(st.games[r].seats, s).Some?
      && !OutOfTurn(rules.turn(st.games[r].fen), FirstSeat(st.games[r].seats, s).value.color)
  {
  }

  /** Socket `s` asks to move from `from` to `to` in room `r`. */
  function OnMove(rules: Rules, st: State, s: SocketId, r: RoomId, from: Square, to: Square): (o: Outcome)
    // unknown room, or a socket with no seat there: dropped
    ensures r !in st.games ==> o == Outcome(st, [])
    ensures r in st.games && (forall i :: 0 <= i < |st.games[r].seats| ==> st.games[r].seats[i].id != s) ==>
      o == Outcome(st, [])
    // a move is broadcast exactly when it is admitted and the engine makes it
    ensures o.emitted != [] <==> Admitted(rules, st, s, r) && rules.play(st.games[r].fen, from, to).Accepted?
    // dropped or refused moves change nothing
    ensures o.emitted == [] ==> o.next == st
    // an accepted move replaces only that room's position and broadcasts it
    ensures o.emitted != [] ==>
      var n := rules.play(st.games[r].fen, from, to).next;
      && o.next == st.(games := st.games[r := st.games[r].(fen := n)])
      && o.emitted == [ToRoom(r, Moved(n))]
    // the game-over message is never sent
    ensures forall e :: e in o.emitted ==> !e.msg.GameOver?
  {
    if r !in st.games then Outcome(st, [])
    else
      AdmittedByFirstSeat(rules, st, s, r);
      var game := st.games[r];
      var player := FirstSeat(game.seats, s);
      if player.None? then Outcome(st, [])
      else if OutOfTurn(rules.turn(game.fen), player.value.color) then Outcome(st, [])
      else
        match rules.play(game.fen, from, to)
        case Accepted(n) =>
          Outcome(st.(games := st.games[r := game.(fen := n)]), [ToRoom(r, Moved(n))])
        case Refused => Outcome(st, [])
        case Threw => Outcome(st, [])
  }
}

=== FILE: quirks.dfy ===
/** Behaviour of the room table that follows from the handlers as written
    and is easy to miss: scenarios stated for every oracle. */
module Quirks {
  import opened ChessRules
  import opened RoomTable
  import opened JoinHandler
  import opened MoveHandler
  import opened DisconnectHandler
  import opened Coordinator

  /** Running one event is handling it. */
  lemma RunOne(rules: Rules, st: State, e: Event)
    ensures Run(rules, st, [e]) == Handle(rules, st, e)
  {
  }

  /** Running two events is handling one after the other. */
  lemma RunTwo(rules: Rules, st: State, e1: Event, e2: Event)
    ensures var first := Handle(rules, st, e1);
            var second := Handle(rules, first.next, e2);
            Run(rules, st, [e1, e2]) == Outcome(second.next, first.emitted + second.emitted)
  {
    var first := Handle(rules, st, e1);
    assert [e1, e2][0] == e1 && [e1, e2][1..] == [e2];
    RunOne(rules, first.next, e2);
  }

  /** Two sockets joining a fresh room get white then black, and the room
      hears the count go from one to two. */
  lemma TwoJoinersGetBothColours(rules: Rules, a: SocketId, b: SocketId, r: RoomId)
    ensures Run(rules, Empty, [Join(a, r), Join(b, r)]).next.games == map[r := Game(rules.start, [Seat(a, White), Seat(b, Black)])]
    ensures Run(rules, Empty, [Join(a, r), Join(b, r)]).emitted ==
      [ToSocket(a, Init(rules.start, White)), ToRoom(r, Players(1)),
       ToSocket(b, Init(rules.start, Black)), ToRoom(r, Players(2))]
  {
    var first := OnJoin(rules, Empty, a, r);
    var second := OnJoin(rules, first.next, b, r);
    RunTwo(rules, Empty, Join(a, r), Join(b, r));
    assert Handle(rules, Empty, Join(a, r)) == first;
    assert Handle(rules, first.next, Join(b, r)) == second;
    assert first.next.games == map[r := Game(rules.start, [Seat(a, White)])];
    assert second.next.games[r] == Game(rules.start, [Seat(a, White), Seat(b, Black)]);
    assert second.next.games.Keys == {r};
    assert second.next.games == map[r := Game(rules.start, [Seat(a, White), Seat(b, Black)])];
  }

  /** A third socket is turned away from a full room without a word, and the
      table does not change. */
  lemma ThirdJoinerIgnored(rules: Rules, st: State, c: SocketId, r: RoomId)
    requires r in st.games && |st.games[r].seats| == 2
    ensures OnJoin(rules, st, c, r) == Outcome(st, [])
  {
  }

  /** A socket that joins the same room twice holds both seats. */
  lemma DoubleJoinTakesBothSeats(rules: Rules, st: State, s: SocketId, r: RoomId)
    requires r !in st.games
    ensures OnJoin(rules, OnJoin(rules, st, s, r).next, s, r).next.games[r].seats == [Seat(s, White), Seat(s, Black)]
  {
  }

  /** Such a socket is always found by its white seat, so it can never move
      when black is to move. */
  lemma DoubleSeatBlackNeverMoves(rules: Rules, st: State, s: SocketId, r: RoomId, from: Square, to: Square)
    requires r in st.games && st.games[r].seats == [Seat(s, White), Seat(s, Black)]
    requires rules.turn(st.games[r].fen) == B
    ensures OnMove(rules, st, s, r, from, to) == Outcome(st, [])
  {
  }

  /** Filtering white's socket out of a full room leaves black alone. */
  lemma WithoutWhite(a: SocketId, b: SocketId)
    requires a != b
    ensures Without([Seat(a, White), Seat(b, Black)], a) == [Seat(b, Black)]
  {
  }

  /** When white leaves a full room, the black player stays and the room
      hears that one player is left. */
  lemma WhiteLeaves(st: State, a: SocketId, b: SocketId, r: RoomId, f: Fen)
    requires a != b
    requires r in st.games && st.games[r] == Game(f, [Seat(a, White), Seat(b, Black)])
    requires r in Memberships(st, a)
    ensures r in OnDisconnect(st, a).next.games
    ensures OnDisconnect(st, a).next.games[r] == Game(f, [Seat(b, Black)])
    ensures ToRoom(r, Players(1)) in OnDisconnect(st, a).emitted
  {
    WithoutWhite(a, b);
  }

  /** A room whose only player is black gives the next joiner black as well:
      colours in a room need not differ. */
  lemma LoneBlackNextJoinerBlack(rules: Rules, st: State, b: SocketId, c: SocketId, r: RoomId, f: Fen)
    requires r in st.games && st.games[r] == Game(f, [Seat(b, Black)])
    ensures OnJoin(rules, st, c, r).next.games[r] == Game(f, [Seat(b, Black), Seat(c, Black)])
  {
    assert [Seat(b, Black)] + [Seat(c, Black)] == [Seat(b, Black), Seat(c, Black)];
  }

  /** A room whose players are all black is stuck once white is to move:
      every move in it is dropped. */
  lemma AllBlackRoomStuck(rules: Rules, st: State, x: SocketId, r: RoomId, from: Square, to: Square)
    requires r in st.games && rules.turn(st.games[r].fen) == W
    requires forall i :: 0 <= i < |st.games[r].seats| ==> st.games[r].seats[i].color == Black
    ensures OnMove(rules, st, x, r, from, to) == Outcome(st, [])
  {
  }

  /** A socket that joined nothing is still in the room named by its own id;
      if another socket created a game under that id, the disconnect sweeps
      it and tells it its (unchanged) player count. */
  lemma OwnIdRoomSwept(st: State, s: SocketId)
    requires s !in st.rooms && s in st.games
    requires forall i :: 0 <= i < |st.games[s].seats| ==> st.games[s].seats[i].id != s
    requires |st.games[s].seats| > 0
    ensures OnDisconnect(st, s).next.games == st.games
    ensures OnDisconnect(st, s).emitted == [ToRoom(s, Players(|st.games[s].seats|))]
  {
    var o := OnDisconnect(st, s);
    assert Memberships(st, s) == [s] && [s][1..] == [];
    WithoutKeepsAll(st.games[s].seats, s);
    assert o.next.games == st.games;
    assert Announce([s], o.next.games) == [ToRoom(s, Players(|st.games[s].seats|))] + Announce([], o.next.games);
  }
}

=== FILE: rules.dfy ===
/** The chess rules engine seen from the room table: an abstract oracle.

    The server never inspects a board; it only asks the engine for the
    starting position, whose turn it is, and what a move from one square to
    another does. A position is represented by its FEN string, which records
    everything move legality depends on. */
module ChessRules {

  type Fen = string

  /** Square names arrive from the client unchecked. */
  type Square = string

  /** The engine's side to move: 'w' or 'b'. */
  datatype Side = W | B

  /** A seat's colour: 'white' or 'black'. */
  datatype Color = White | Black

  /** What asking the engine to play a move can give back: the move is made
      (and the new position is its FEN), the engine answers null, or it
      throws. */
  datatype MoveOutcome = Accepted(next: Fen) | Refused | Threw

  /** The oracle: initial position, side to move, and the move function. */
  datatype Rules = Rules(start: Fen, turn: Fen -> Side, play: (Fen, Square, Square) -> MoveOutcome)

  /** The side a colour plays. */
  function SideOf(c: Color): (s: Side)
    ensures s == W <==> c == White
  {
    match c
    case White => W
    case Black => B
  }

  /** The turn guard as the server writes it: a player is out of turn when
      it is white's turn and the player is not white, or black's turn and
      the player is not black. */
  function OutOfTurn(turn: Side, c: Color): (r: bool)
    ensures r <==> SideOf(c) != turn
  {
    (turn == W && c != White) || (turn == B && c != Black)
  }
}

=== FILE: table.dfy ===
/** The server's state: the `games` table and each socket's room memberships,
    together with the messages the handlers emit. */
module RoomTable {
  import opened ChessRules

  type SocketId = string
  type RoomId = string

  datatype Option<T> = None | Some(value: T)

  /** One player of a game: the socket that holds the seat and its colour. */
  datatype Seat = Seat(id: SocketId, color: Color)

  /** One room's game: the engine's current position and the seat list. */
  datatype Game = Game(fen: Fen, seats: seq<Seat>)

  /** The whole server: `games` keyed by room id, and, per socket, the rooms
      the transport has it in, in the order it entered them. */
  datatype State = State(games: map<RoomId, Game>, rooms: map<SocketId, seq<RoomId>>)

  /** The messages a handler sends. `GameOver` is part of the protocol (the
      client listens for it) even though the server never sends it. */
  datatype Payload = Init(fen: Fen, color: Color) | Players(count: nat) | Moved(fen: Fen) | GameOver(result: string)

  /** A message and its addressee: one socket, or every socket in a room. */
  datatype Emit = ToSocket(socket: SocketId, msg: Payload) | ToRoom(room: RoomId, msg: Payload)

  /** A handler's result: the next state and the messages, in order. */
  datatype Outcome = Outcome(next: State, emitted: seq<Emit>)

  /** The state before any event: no games, no joined rooms. */
  const Empty := State(map[], map[])

  /** The rooms a socket is in. The transport puts every socket in a room
      named by its own id when it connects, so a socket that has joined
      nothing is in that room alone. */
  function Memberships(st: State, s: SocketId): (rs: seq<RoomId>)
  {
    if s in st.rooms then st.rooms[s] else [s]
  }

  predicate Distinct(rs: seq<RoomId>)
  {
    forall i, j :: 0 <= i < j < |rs| ==> rs[i] != rs[j]
  }

  /** Adding a socket to a room: the membership list is a set kept in
      insertion order, so a room already present is not added again. */
  function Enter(rs: seq<RoomId>, r: RoomId): (rs': seq<RoomId>)
    ensures r in rs'
    ensures forall x :: x in rs' <==> x in rs || x == r
    ensures |rs| <= |rs'| && rs'[..|rs|] == rs
    ensures Distinct(rs) ==> Distinct(rs')
  {
    if r in rs then rs else rs + [r]
  }

  /** The first seat held by socket `s`, as `players.find(p => p.id === s)`. */
  function FirstSeat(seats: seq<Seat>, s: SocketId): (r: Option<Seat>)
    ensures r.None? <==> forall i :: 0 <= i < |seats| ==> seats[i].id != s
    ensures r.Some? ==> exists i :: 0 <= i < |seats| && seats[i] == r.value && r.value.id == s
                          && forall j :: 0 <= j < i ==> seats[j].id != s
  {
    if |seats| == 0 then None
    else if seats[0].id == s then Some(seats[0])
    else
      var rest := FirstSeat(seats[1..], s);
      if rest.Some? then
        ghost var k :| 0 <= k < |seats| - 1 && seats[1..][k] == rest.value && rest.value.id == s
                       && forall j :: 0 <= j < k ==> seats[1..][j].id != s;
        assert seats[k + 1] == rest.value;
        rest
      else rest
  }

  /** The seats left once socket `s` leaves, as
      `players.filter(p => p.id !== s)`. What is kept, and in which order,
      is stated by the lemmas below. */
  function Without(seats: seq<Seat>, s: SocketId): (r: seq<Seat>)
    ensures forall i :: 0 <= i < |r| ==> r[i].id != s
    ensures |r| <= |seats|
  {
    if |seats| == 0 then []
    else if seats[0].id == s then Without(seats[1..], s)
    else [seats[0]] + Without(seats[1..], s)
  }

  /** A seat of the leaving socket at the head is dropped. */
  lemma WithoutDrop(x: Seat, rest: seq<Seat>, s: SocketId)
    requires x.id == s
    ensures Without([x] + rest, s) == Without(rest, s)
  {
  }

  /** Any other seat at the head is kept, in front. */
  lemma WithoutKeep(x: Seat, rest: seq<Seat>, s: SocketId)
    requires x.id != s
    ensures Without([x] + rest, s) == [x] + Without(rest, s)
  {
  }

  /** Every seat of `s` goes and every other seat stays, as often as it
      occurred. */
  lemma {:induction false} WithoutCounts(seats: seq<Seat>, s: SocketId)
    ensures forall p :: multiset(Without(seats, s))[p] == if p.id == s then 0 else multiset(seats)[p]
    decreases |seats|
  {
    if |seats| > 0 {
      var x, rest := seats[0], seats[1..];
      assert seats == [x] + rest;
      WithoutCounts(rest, s);
      if x.id == s {
        WithoutDrop(x, rest, s);
      } else {
        WithoutKeep(x, rest, s);
      }
    }
  }

  /** A seat left after filtering was a seat before. */
  lemma WithoutKeepsSeat(seats: seq<Seat>, s: SocketId, i: nat)
    requires i < |Without(seats, s)|
    ensures Without(seats, s)[i] in seats
  {
    var left := Without(seats, s);
    WithoutCounts(seats, s);
    assert left[i] in multiset(left);
  }

  /** Filtering keeps order: the seats kept from a front part come before
      those kept from the back part. With `WithoutCounts` this pins the
      result down completely. */
  lemma {:induction false} WithoutAppend(a: seq<Seat>, b: seq<Seat>, s: SocketId)
    ensures Without(a + b, s) == Without(a, s) + Without(b, s)
    decreases |a|
  {
    if |a| == 0 {
      assert a + b == b;
    } else {
      var x, tail := a[0], a[1..];
      assert a == [x] + tail;
      assert a + b == [x] + (tail + b);
      WithoutAppend(tail, b, s);
      var A, B := Without(tail, s), Without(b, s);
      if x.id == s {
        WithoutDrop(x, tail + b, s);
        WithoutDrop(x, tail, s);
      } else {
        WithoutKeep(x, tail + b, s);
        WithoutKeep(x, tail, s);
        assert [x] + (A + B) == ([x] + A) + B;
      }
    }
  }

  /** A list where `s` holds no seat comes back unchanged. */
  lemma {:induction false} WithoutKeepsAll(seats: seq<Seat>, s: SocketId)
    requires forall i :: 0 <= i < |seats| ==> seats[i].id != s
    ensures Without(seats, s) == seats
    decreases |seats|
  {
    if |seats| > 0 {
      assert seats == [seats[0]] + seats[1..];
      WithoutKeepsAll(seats[1..], s);
      WithoutKeep(seats[0], seats[1..], s);
    }
  }

  /** Nothing is left exactly when every seat was the leaving socket's. */
  lemma WithoutEmpty(seats: seq<Seat>, s: SocketId)
    ensures Without(seats, s) == [] <==> forall i :: 0 <= i < |seats| ==> seats[i].id == s
  {
  }

  /** Filtering a socket out twice removes nothing more. */
  lemma WithoutIdempotent(seats: seq<Seat>, s: SocketId)
    ensures Without(Without(seats, s), s) == Without(seats, s)
  {
  }

  /** Every room in the table has one or two seats. */
  ghost predicate SeatBound(st: State)
  {
    forall r :: r in st.games ==> 1 <= |st.games[r].seats| <= 2
  }

  /** Each socket's membership list holds no room twice. */
  ghost predicate MembershipsDistinct(st: State)
  {
    forall s :: s in st.rooms ==> Distinct(st.rooms[s])
  }

  /** Whoever holds a seat in a room is in that room at the transport. */
  ghost predicate SeatsHeldByMembers(st: State)
  {
    forall r, i :: r in st.games && 0 <= i < |st.games[r].seats| ==>
      r in Memberships(st, st.games[r].seats[i].id)
  }

  ghost predicate Valid(st: State)
  {
    SeatBound(st) && MembershipsDistinct(st) && SeatsHeldByMembers(st)
  }
}
